=== FILE: README.md ===
# monad-deployer: the contract registry and the deployer's orchestration, in Dafny

monad-deployer is a browser page for deploying a fixed set of contracts to
the Monad test network, plus a small Express service that remembers, per
wallet, which contracts were deployed. This project models two parts of it
as pure functions and proves properties about them:

- **The registry service** (`server.js`). The `./data/` directory is a map from the
  wallet string to the stored JSON list. GET, POST and DELETE
  `/contracts...` are each a step from the store and the request to the new
  store and the response. The directory order that the case-insensitive
  GET fallback scans is a parameter, and it must list exactly the stored keys.
- **The front-end's orchestration** (`script.js`). The page state is the
  connected wallet and the address cache `contractAddresses`. Deployments
  and chain reads are oracle outcomes (`Ok(addr)` or `Fail`). Each
  operation returns the effects it issues in order: deployments, chain
  reads, the registry fetch, and the POSTs that `saveContract` fires
  without awaiting. The input helpers are also modelled:
  - the comma split and trim of `sendBatch`;
  - the comma join of `useGeneratedWallets`;
  - the range guards on the bet number and the wallet count.
- **The protocol between them.** The front-end's save sends
  `{ wallet, contractType, address }`. The service's POST reads
  `{ wallet, contractData }`. The model keeps both sides as written and
  proves what follows: every save is rejected, and the next session sync
  restores nothing.

Modules: `Common` holds JavaScript built-ins: `find`, ASCII `toLowerCase`,
`split`, `join` and `trim`. `JsonValue` holds JSON values, truthiness and
template-literal string conversion. `Registry` models `server.js`. `Session` models the
deployment and sync functions of `script.js`. `Inputs` models the form helpers.
`Protocol` covers the client–service boundary.

The service's POST handler reads `contractData`, while a design that
takes `{ wallet, contractType, address }` would accept the front-end's saves.
The model follows the code: `Registry.Post` reads `contractData`. The
flat-shape handler appears only as the corrected half of the finding
below.

Form fields reach the guards as strings, and JavaScript converts them to
numbers to compare them. The converted value is a parameter (`Inputs.Number`),
so NaN is modelled: a non-numeric bet or wallet count fails both comparisons
of its guard and is let through, as the guards are written.

## Model

| member | source | states |
|---|---|---|
| Common.FirstIndex | server.js:32 | `files.find`: the index of the first element satisfying the predicate, or none when no element does |
| Common.LowerChar | server.js:32 | ASCII `toLowerCase` of one character: the result is never a capital; a non-capital is kept; a capital becomes the small letter at the same place in the alphabet |
| Common.Lower | server.js:32 | `toLowerCase` of a string: same length, no capital left, every non-capital kept, every capital replaced by its small letter |
| Common.SameIgnoringCaseFacts | server.js:32 | the case-insensitive file-name comparison is an equivalence, only relates strings of equal length, and is plain equality on strings without capitals |
| Common.Join | script.js:758 | `join(',')`: no pieces give the empty text and one piece gives itself; with SplitJoin, splitting the join of comma-free pieces gives the pieces back |
| Common.Split | script.js:663 | `split(',')`: at least one piece and none holds the separator; with JoinSplit, joining the pieces gives the text back |
| Common.SplitJoin | script.js:663 | splitting on `,` the join of comma-free pieces gives the pieces back |
| Common.JoinSplit | script.js:663 | joining the pieces of a split with `,` gives the original string |
| Common.Trim | script.js:663 | `trim` removes exactly a white-space prefix and suffix, and the result neither starts nor ends with white space |
| Common.TrimOfTrimmed | script.js:663 | trimming a string with no surrounding white space leaves it unchanged |
| JsonValue.Truthy | server.js:57 | a JSON value is falsy exactly when it is `null`, `false`, `0` or the empty string |
| JsonValue.KeyString | server.js:59 | a string wallet becomes the file-name key unchanged inside the template literal |
| Registry.Get | server.js:22-46 | always a 200 with an array. The exact key's list wins. Failing that, the list of the first key in directory order that equals the wallet ignoring case. Failing that, `[]` |
| Registry.Post | server.js:54-71 | 400 "Invalid data" exactly when `wallet` or `contractData` is missing or falsy, with the store unchanged. Otherwise `contractData` becomes the last element of the exact key's list (starting from empty), all other keys are unchanged, and the body echoes `contractData` |
| Registry.Delete | server.js:79-91 | the exact key is gone, every other key keeps its presence and list, and the response is `{ success: true }` whether or not the key existed |
| Registry.DeleteIdempotent | server.js:81-91 | deleting twice leaves the same store and response as deleting once |
| Registry.GetAfterPost | server.js:59-68 | read-your-writes: a GET for the string just saved under returns the earlier list with the new item last |
| Registry.CasingsStoredApart | server.js:59-68 | saves under two different strings land in two separate lists, even when they differ only in casing |
| Registry.GetOtherCasingAfterPost | server.js:31-36 | when no stored key matched the wallet ignoring case before, a GET in another casing after a save returns just that save |
| Registry.GetAfterDelete | server.js:27-39 | after DELETE(w), GET(w) returns `[]` unless a differently-cased key remains, and then it returns the first such key's list |
| Session.SaveContract | script.js:768-786 | at most one POST. None exactly when the wallet, type or address is empty. Otherwise one POST carrying exactly those three fields |
| Session.ApplyRecords | script.js:797-799 | the cache after the loop: keys are the old keys plus the record types; each type maps to the address of its last record; every other entry keeps its value |
| Session.LastDuplicateWins | script.js:797-799 | two `Token` records leave the later address |
| Session.LoadUserContracts | script.js:789-812 | with no wallet, nothing happens. Otherwise exactly one registry fetch. A failed fetch leaves the cache unchanged, and a successful one folds its records last-wins |
| Session.DeployIndividualContract | script.js:227-254 | no wallet: nothing issued, nothing cached. Otherwise the effects are exactly one deployment followed by at most one save: none after a failed deployment, which also caches nothing. A successful one saves `(wallet, name, addr)` and caches `name -> addr`, leaving other entries alone |
| Session.ReadAll | script.js:172-175 | awaited reads in order: all addresses when every read succeeds, otherwise the first failing read, with every earlier read successful |
| Session.GetContractAddresses | script.js:161-198 | no manager: nothing happens. All reads are issued before any save, and only saves follow the four reads. A failed read stops the reads, caches nothing and saves nothing. Full success caches the four children and saves them in order |
| Session.RecordManager | script.js:141-148 | after the deployment, the effects are exactly the deployment, then the manager's save, then the discovery of its children, and the page state is the one discovery leaves |
| Session.RecordManagerOutcome | script.js:141-148 | the manager stays cached whatever the child reads do; a failed read leaves only the manager's save and cache entry; full success adds the four children's saves and entries after it |
| Session.DeployContractManager | script.js:125-158 | no wallet: nothing issued. A failed deployment issues only the deployment, and saves and caches nothing. A successful one issues the deployment, the manager's save and then the discovery, reports success, and keeps the manager record whatever the child reads do |
| Session.ManagerDeploySavesAll | script.js:141-193 | with all reads successful, the saves are ContractManager, Token, NFT, VotingSystem, BatchTransaction in that order, and the cache is the manager entry followed by the four child entries |
| Session.ManagerDeployCachesAll | script.js:141-193 | with all reads successful, all five addresses are cached, each under its type |
| Session.ChildSavesMatchCache | script.js:178-193 | each child save names a child whose cached address is the saved one |
| Session.ManagerSavesMatchCache | script.js:141-193 | whatever the chain does, every save of a manager deployment agrees with the cache it leaves |
| Session.IndividualSaveMatchesCache | script.js:243-247 | the save of an individual deployment agrees with the cache it leaves |
| Inputs.BetAccepted | script.js:443-447 | the bet goes ahead exactly for a non-empty field whose number is in 1..10 or is NaN |
| Inputs.WalletCountAccepted | script.js:705-710 | generation goes ahead exactly for a non-empty field whose number is in (0, 20] or is NaN |
| Inputs.GenerateWallets | script.js:704-737 | rejected exactly when the guard rejects. A NaN count creates no wallet. A numeric count creates its value rounded up, between 1 and 20 |
| Inputs.ParseRecipients | script.js:663 | one piece per comma-separated segment of the text, each piece being its segment with the surrounding white space cut off, so free of commas and of surrounding white space |
| Inputs.UseGeneratedWallets | script.js:751-764 | nothing when no wallets were generated; otherwise a text that splits on commas back into the addresses when none of them holds a comma |
| Inputs.ParseGeneratedWallets | script.js:758 | parsing the joined addresses gives them back when none holds a comma or surrounding white space |
| Inputs.SendBatch | script.js:648-671 | no cached batch contract, empty inputs or a non-positive amount stop it first. The first invalid parsed recipient aborts. A transfer goes to exactly the parsed list, only when every parsed recipient is valid |
| Inputs.BatchOfGeneratedWallets | script.js:751-758 | a batch fed by the generated wallets transfers to exactly those addresses, in order |
| Protocol.ClientSaveRejected | server.js:56-57 | the body the front-end sends has no `contractData`, so POST answers 400 and leaves the store unchanged |
| Protocol.DeliverSaves | server.js:54-57 | any run of front-end saves leaves the store unchanged and gets one 400 per save |
| Protocol.DecodeRecords | script.js:794-798 | the answer is read as records exactly when it is an array whose every element is an object with string `contractType` and `address` fields; record i carries element i's `contractType` and `address` |
| Protocol.DecodeEncode | script.js:797-798 | records written as JSON objects read back as the same records |
| Protocol.SyncAfterSavesRestoresNothing | script.js:789-799 | for a wallet the service had never seen, in any casing, a session's saves leave GET returning `[]`, and the next sync leaves the cache as it was |
| Protocol.PostFlat | server.js:54-71 | corrected POST: 400 exactly when `wallet`, `contractType` or `address` is falsy. Otherwise `{ contractType, address }` is appended under the exact wallet, and other keys are unchanged |
| Protocol.FlatSaveRestoredOnSync | script.js:768-799 | with the corrected POST, a save followed by a GET and a sync leaves `type -> address` in the cache |

## Findings

| source | as written | input that shows it | evidently intended | confidence | as-written member | corrected member |
|---|---|---|---|---|---|---|
| server.js:56-57 | POST reads `{ wallet, contractData }`, but `saveContract` (script.js:777-781) sends `{ wallet, contractType, address }` | any save, e.g. `{ wallet: "0xab", contractType: "Token", address: "0xcd" }`: `contractData` is undefined, so the answer is 400 and nothing is stored | the handler accepts the shape the front-end sends and stores `{ contractType, address }`, which `loadUserContracts` reads back | high, not executed | Protocol.ClientSaveRejected | Protocol.PostFlat |

`Protocol.SyncAfterSavesRestoresNothing` shows the consequence as written:
a session's deployments are never restored on reconnect.
`Protocol.FlatSaveRestoredOnSync` proves the intended round trip for the
corrected handler. `Registry.Post` still models the handler as written,
because it is what the service runs.

## Left out

- File-system I/O (`existsSync`, `readdirSync`, `readFileSync`, `writeFileSync`, `unlinkSync`) is modelled as operations on the map. The `.json` file suffix is dropped: with ASCII lower-casing, a file name matches `wallet + ".json"` ignoring case exactly when its stem matches the wallet.
- Files in `./data/` other than the ones POST writes are not modelled; the directory order is a parameter, because the file system does not fix it.
- The HTTP 500 paths: a corrupt stored file, a JSON parse failure, or a failed write.
- Path traversal through the wallet string.
- The `GET /` liveness route and the server's startup (`mkdirSync`, `listen`).
- Express, CORS and `fetch` transport: saves are issued effects, and the model does not await them.
- The lost-update race between concurrent POSTs for one wallet: saves are not awaited, so arrival order is a concurrency matter.
- ethers calls (contract factories, `deployed`, the child-address getters, `isAddress`, `Wallet.createRandom`) become oracle parameters, and key material is not modelled.
- Floating-point amounts (`parseEther`, `amount * recipientList.length`) and JavaScript's string-to-number conversion: the converted number is a parameter.
- DOM updates, alerts, `updateBlockchainTools`, network switching, the account and chain listeners, balance polling, `deleteUserData` and the game and token interaction functions. Every element the page writes is assumed to exist. In the page, a missing element makes the `innerText` write throw. At script.js:144 and 246 it sits after the save and before the cache write. At script.js:184-187 it sits between the four children's cache writes and their saves, so those children would stay cached but unsaved. The sequencing contracts of `Session` do not cover these throws.
- Registry.Get: the directory order is supplied by the caller rather than taken from the file system.
- JsonValue.Json: JSON numbers are unbounded integers, not JavaScript doubles. Fractions are left out, and so are three double effects on modelled paths:
  - A numeric wallet of 1e21 or more becomes the key `1e+21` (and so on) through the template literal at server.js:59. `KeyString` prints every digit instead, so the model files such a save under a different key.
  - `JSON.parse` rounds integers past 2^53. The service stores such a wallet or value rounded; the model keeps it exact.
  - A `contractData` that overflows to `Infinity` (such as `1e400`) is truthy, so POST accepts it. `JSON.stringify` at server.js:68 then writes it as `null`, so a later GET returns `null` where `Registry.GetAfterPost` promises the item.
- JsonValue.KeyString: its contract states only the string case, because the front-end always sends the wallet as a string.
- Protocol.DecodeRecords: an answer with an element that is not a `{ contractType, address }` object counts as a failed fetch. In the page, such an element writes the key `"undefined"` into the cache or throws part-way through the loop.
- Non-ASCII case folding: `toLowerCase` is ASCII-only here.
- Registry.Store: keys are compared exactly, as on a case-sensitive file system. On a case-insensitive one, `existsSync` (server.js:27, 62, 84) also finds a file saved under another casing, so GET never reaches its fallback and POST and DELETE act on that file; `Registry.CasingsStoredApart` and `Registry.GetOtherCasingAfterPost` describe the service only on a case-sensitive file system.

=== FILE: common.dfy ===
/** Small shared vocabulary: an optional value, ASCII case folding, and the
    JavaScript string operations the front-end relies on (`split` on one
    character, `join` with one character, `trim`). */
module Common {

  datatype Option<+T> = None | Some(value: T)

  /** The position of the first element satisfying `p`, as `Array.prototype.find`
      and a `for...of` loop with an early exit scan a list. */
  function FirstIndex<T>(xs: seq<T>, p: T -> bool): (r: Option<nat>)
    ensures r.Some? ==>
      && r.value < |xs|
      && p(xs[r.value])
      && (forall j :: 0 <= j < r.value ==> !p(xs[j]))
    ensures r.None? ==> forall j :: 0 <= j < |xs| ==> !p(xs[j])
    decreases |xs|
  {
    if |xs| == 0 then None
    else if p(xs[0]) then Some(0)
    else match FirstIndex(xs[1..], p)
      case None => None
      case Some(i) => Some(i + 1)
  }

  /* ---------------- ASCII case folding (String.prototype.toLowerCase) ---------------- */

  /** An ASCII capital letter. */
  predicate IsUpper(c: char)
  {
    'A' <= c <= 'Z'
  }

  /** `toLowerCase` on one character, ASCII only: a capital becomes the small
      letter at the same place in the alphabet; nothing else changes. */
  function LowerChar(c: char): (r: char)
    ensures !IsUpper(r)
    ensures !IsUpper(c) ==> r == c
    ensures IsUpper(c) ==> 'a' <= r <= 'z' && r as int - 'a' as int == c as int - 'A' as int
  {
    if 'A' <= c <= 'Z' then (c as int + 32) as char else c
  }

  /** `toLowerCase` on a string: no capital is left, and each character is
      the original or, for a capital, its small letter. */
  function Lower(s: string): (r: string)
    ensures |r| == |s|
    ensures forall i :: 0 <= i < |r| ==> !IsUpper(r[i])
    ensures forall i :: 0 <= i < |s| && !IsUpper(s[i]) ==> r[i] == s[i]
    ensures forall i :: 0 <= i < |s| && IsUpper(s[i]) ==> r[i] as int - 'a' as int == s[i] as int - 'A' as int
  {
    seq(|s|, i requires 0 <= i < |s| => LowerChar(s[i]))
  }

  /** Two strings name the same wallet for a case-insensitive lookup. */
  predicate SameIgnoringCase(a: string, b: string)
  {
    Lower(a) == Lower(b)
  }

  /** The case-insensitive match is an equivalence, and it is plain equality
      on strings with no capitals; strings of different lengths never
      match. */
  lemma SameIgnoringCaseFacts(a: string, b: string, c: string)
    ensures SameIgnoringCase(a, a)
    ensures SameIgnoringCase(a, b) ==> SameIgnoringCase(b, a)
    ensures SameIgnoringCase(a, b) && SameIgnoringCase(b, c) ==> SameIgnoringCase(a, c)
    ensures SameIgnoringCase(a, b) ==> |a| == |b|
    ensures (forall i :: 0 <= i < |a| ==> !IsUpper(a[i])) && (forall i :: 0 <= i < |b| ==> !IsUpper(b[i])) ==>
      (SameIgnoringCase(a, b) <==> a == b)
  {
    if (forall i :: 0 <= i < |a| ==> !IsUpper(a[i])) && (forall i :: 0 <= i < |b| ==> !IsUpper(b[i])) {
      assert Lower(a) == a;
      assert Lower(b) == b;
    }
  }

  /* ---------------- join / split on one separator ---------------- */

  /** `xs.join(sep)` for an array of strings. */
  function Join(xs: seq<string>, sep: char): (r: string)
    ensures |xs| == 0 ==> r == ""
    ensures |xs| == 1 ==> r == xs[0]
    decreases |xs|
  {
    if |xs| == 0 then ""
    else if |xs| == 1 then xs[0]
    else xs[0] + [sep] + Join(xs[1..], sep)
  }

  /** `s.split(sep)` for a one-character separator: the pieces between
      consecutive occurrences of `sep`, so always one more piece than there
      are separators, and `""` splits into `[""]`. */
  function Split(s: string, sep: char): (r: seq<string>)
    ensures |r| >= 1
    ensures forall i :: 0 <= i < |r| ==> sep !in r[i]
    decreases |s|
  {
    if |s| == 0 then [""]
    else
      var rest := Split(s[1..], sep);
      if s[0] == sep then [""] + rest
      else [[s[0]] + rest[0]] + rest[1..]
  }

  /** Splitting and re-joining gives the original text back. */
  lemma {:induction false} JoinSplit(s: string, sep: char)
    ensures Join(Split(s, sep), sep) == s
    decreases |s|
  {
    if |s| == 0 {
    } else {
      var rest := Split(s[1..], sep);
      JoinSplit(s[1..], sep);
      if s[0] == sep {
        assert Split(s, sep) == [""] + rest;
        assert ([""] + rest)[1..] == rest;
        assert s == [sep] + s[1..];
      } else {
        var r := Split(s, sep);
        assert r == [[s[0]] + rest[0]] + rest[1..];
        if |rest| == 1 {
          assert s == [s[0]] + rest[0];
        } else {
          assert r[1..] == rest[1..];
          assert Join(rest, sep) == rest[0] + [sep] + Join(rest[1..], sep);
          assert s == [s[0]] + s[1..];
        }
      }
    }
  }

  /** Joining pieces that do not contain the separator and splitting again
      recovers the pieces, provided there is at least one piece
      (`[].join(",")` is `""`, which splits into `[""]`). */
  lemma {:induction false} SplitJoin(xs: seq<string>, sep: char)
    requires |xs| >= 1
    requires forall i :: 0 <= i < |xs| ==> sep !in xs[i]
    ensures Split(Join(xs, sep), sep) == xs
    decreases |xs|
  {
    if |xs| == 1 {
      SplitNoSeparator(xs[0], sep);
    } else {
      SplitJoin(xs[1..], sep);
      SplitPrefix(xs[0], Join(xs[1..], sep), sep);
      assert Join(xs, sep) == xs[0] + [sep] + Join(xs[1..], sep);
      assert xs == [xs[0]] + xs[1..];
    }
  }

  /** A text without the separator splits into itself. */
  lemma {:induction false} SplitNoSeparator(s: string, sep: char)
    requires sep !in s
    ensures Split(s, sep) == [s]
    decreases |s|
  {
    if |s| > 0 {
      SplitNoSeparator(s[1..], sep);
      assert s == [s[0]] + s[1..];
    }
  }

  /** A separator-free head followed by a separator contributes exactly one
      piece in front of the split of the remainder. */
  lemma {:induction false} SplitPrefix(head: string, tail: string, sep: char)
    requires sep !in head
    ensures Split(head + [sep] + tail, sep) == [head] + Split(tail, sep)
    decreases |head|
  {
    var s := head + [sep] + tail;
    if |head| == 0 {
      assert s == [sep] + tail;
      assert s[1..] == tail;
    } else {
      assert s[1..] == head[1..] + [sep] + tail;
      SplitPrefix(head[1..], tail, sep);
      assert head == [head[0]] + head[1..];
    }
  }

  /* ---------------- trim (String.prototype.trim) ---------------- */

  /** The characters ECMAScript's `trim` removes: WhiteSpace and
      LineTerminator (section 12.2 and 12.3 of ECMA-262), i.e. the ASCII
      blanks, NBSP, BOM, the Unicode space separators and LS/PS. */
  predicate IsWhiteSpace(c: char)
  {
    || c == ' ' || c == '\t' || c == '\n' || c == '\r'
    || c == '\U{B}' || c == '\U{C}'
    || c == '\U{A0}' || c == '\U{FEFF}' || c == '\U{1680}'
    || ('\U{2000}' <= c <= '\U{200A}')
    || c == '\U{2028}' || c == '\U{2029}'
    || c == '\U{202F}' || c == '\U{205F}' || c == '\U{3000}'
  }

  /** A text with nothing for `trim` to remove. */
  predicate Trimmed(s: string)
  {
    |s| == 0 || (!IsWhiteSpace(s[0]) && !IsWhiteSpace(s[|s| - 1]))
  }

  /** The first index at or after `i` that is not white space (or `|s|`). */
  function SkipLeading(s: string, i: nat): (k: nat)
    requires i <= |s|
    ensures i <= k <= |s|
    ensures forall m :: i <= m < k ==> IsWhiteSpace(s[m])
    ensures k == |s| || !IsWhiteSpace(s[k])
    decreases |s| - i
  {
    if i < |s| && IsWhiteSpace(s[i]) then SkipLeading(s, i + 1) else i
  }

  /** The end of `s[lo..j]` once its trailing white space is dropped. */
  function SkipTrailing(s: string, lo: nat, j: nat): (k: nat)
    requires lo <= j <= |s|
    ensures lo <= k <= j
    ensures forall m :: k <= m < j ==> IsWhiteSpace(s[m])
    ensures k == lo || !IsWhiteSpace(s[k - 1])
    decreases j
  {
    if j > lo && IsWhiteSpace(s[j - 1]) then SkipTrailing(s, lo, j - 1) else j
  }

  /** `s[i..j]` is what `trim` leaves of `s`: everything before `i` and from
      `j` on is white space, and the kept part neither starts nor ends with
      white space. */
  predicate TrimBounds(s: string, i: int, j: int)
  {
    && 0 <= i <= j <= |s|
    && (forall k :: 0 <= k < i ==> IsWhiteSpace(s[k]))
    && (forall k :: j <= k < |s| ==> IsWhiteSpace(s[k]))
    && Trimmed(s[i..j])
  }

  /** `r` is `s` with a white-space prefix and suffix cut away and nothing
      more to cut. */
  ghost predicate TrimOf(s: string, r: string)
  {
    exists i, j :: TrimBounds(s, i, j) && r == s[i..j]
  }

  /** `s.trim()`: a contiguous part of `s` whose cut-away ends are white
      space and which has nothing more to cut. */
  function Trim(s: string): (r: string)
    ensures TrimOf(s, r)
  {
    var i := SkipLeading(s, 0);
    var j := SkipTrailing(s, i, |s|);
    assert TrimBounds(s, i, j) by {
      assert i < j ==> s[i..j][0] == s[i] && s[i..j][j - i - 1] == s[j - 1];
    }
    s[i..j]
  }

  /** Trimming a text that has no surrounding white space changes nothing. */
  lemma TrimOfTrimmed(s: string)
    requires Trimmed(s)
    ensures Trim(s) == s
  {
    if |s| > 0 {
      assert SkipLeading(s, 0) == 0;
      assert SkipTrailing(s, 0, |s|) == |s|;
      assert s[0..|s|] == s;
    }
  }
}

=== FILE: inputs.dfy ===
/** The front-end's handling of form input: the recipient list of a batch
    transfer (split on commas, trimmed, each checked as an address), the
    comma-joined list of generated wallets that feeds it, and the range
    guards on the bet number and on the number of wallets to generate.
    Form fields are strings; where JavaScript compares one with a number it
    first converts it, and that converted value is supplied by the caller. */
module Inputs {
  import opened Common

  /** `Number(field)`: what a form field converts to when compared with a
      number. */
  datatype Number = NaN | Infinity(positive: bool) | Finite(value: real)

  /** `x < k` for a converted field: false for NaN. */
  predicate Below(x: Number, k: real)
  {
    match x
    case NaN => false
    case Infinity(positive) => !positive
    case Finite(v) => v < k
  }

  /** `x > k` for a converted field: false for NaN. */
  predicate Above(x: Number, k: real)
  {
    match x
    case NaN => false
    case Infinity(positive) => positive
    case Finite(v) => v > k
  }

  /** `x <= k` for a converted field: false for NaN. */
  predicate AtMost(x: Number, k: real)
  {
    match x
    case NaN => false
    case Infinity(positive) => !positive
    case Finite(v) => v <= k
  }

  /* ---------------- range guards ---------------- */

  /** `placeBet`'s guard `!betNumber || betNumber < 1 || betNumber > 10`,
      negated: the bet goes ahead exactly for a non-empty field whose value
      is in 1..10 or is not a number at all (NaN fails both comparisons). */
  function BetAccepted(text: string, n: Number): (ok: bool)
    ensures ok <==> text != "" && (n.NaN? || (n.Finite? && 1.0 <= n.value <= 10.0))
  {
    !(text == "" || Below(n, 1.0) || Above(n, 10.0))
  }

  /** `generateWallets`' guard `!count || count <= 0 || count > 20`, negated:
      generation goes ahead exactly for a non-empty field whose value is in
      (0, 20] or is not a number. */
  function WalletCountAccepted(text: string, n: Number): (ok: bool)
    ensures ok <==> text != "" && (n.NaN? || (n.Finite? && 0.0 < n.value <= 20.0))
  {
    !(text == "" || AtMost(n, 0.0) || Above(n, 20.0))
  }

  /** `generateWallets`: after the guard, `for (let i = 0; i < count; i++)`
      creates one wallet per iteration. Returns how many are created: none
      when the guard rejects or the count is NaN, otherwise the count rounded
      up (a fractional count still runs while `i < count`). */
  method GenerateWallets(text: string, count: Number) returns (created: Option<nat>)
    ensures created.None? <==> !WalletCountAccepted(text, count)
    ensures created.Some? && count.NaN? ==> created.value == 0
    ensures created.Some? && count.Finite? ==>
      && 1 <= created.value <= 20
      && ((created.value - 1) as real) < count.value <= created.value as real
  {
    if !WalletCountAccepted(text, count) {
      return None;
    }
    var i: nat := 0;
    while Above(count, i as real)
      invariant i <= 20
      invariant count.NaN? ==> i == 0
      invariant count.Finite? && i > 0 ==> ((i - 1) as real) < count.value
      decreases 20 - i
    {
      i := i + 1;
    }
    return Some(i);
  }

  /* ---------------- recipients ---------------- */

  /** `recipients.split(',').map(addr => addr.trim())`: one piece per
      comma-separated segment of the text, each the segment with its
      surrounding white space cut off. */
  function ParseRecipients(text: string): (r: seq<string>)
    ensures |r| == |Split(text, ',')| >= 1
    ensures forall i :: 0 <= i < |r| ==> TrimOf(Split(text, ',')[i], r[i])
    ensures forall i :: 0 <= i < |r| ==> ',' !in r[i] && Trimmed(r[i])
  {
    var parts := Split(text, ',');
    seq(|parts|, i requires 0 <= i < |parts| => TrimPiece(parts[i]))
  }

  /** Trimming a piece that has no comma leaves a piece with no comma. */
  function TrimPiece(piece: string): (r: string)
    requires ',' !in piece
    ensures TrimOf(piece, r)
    ensures ',' !in r && Trimmed(r)
    ensures Trimmed(piece) ==> r == piece
  {
    var r := Trim(piece);
    var i, j :| TrimBounds(piece, i, j) && r == piece[i..j];
    assert forall k :: 0 <= k < |r| ==> r[k] == piece[i + k];
    if Trimmed(piece) then TrimOfTrimmed(piece); r else r
  }

  /** `useGeneratedWallets`: nothing when no wallets have been generated,
      otherwise one text listing them separated by commas, which splits
      back into the addresses when none of them holds a comma. */
  function UseGeneratedWallets(addresses: seq<string>): (r: Option<string>)
    ensures r.None? <==> |addresses| == 0
    ensures r.Some? && (forall i :: 0 <= i < |addresses| ==> ',' !in addresses[i]) ==>
      Split(r.value, ',') == addresses
  {
    if |addresses| == 0 then None
    else
      assert (forall i :: 0 <= i < |addresses| ==> ',' !in addresses[i]) ==> Split(Join(addresses, ','), ',') == addresses by {
        if forall i :: 0 <= i < |addresses| ==> ',' !in addresses[i] {
          SplitJoin(addresses, ',');
        }
      }
      Some(Join(addresses, ','))
  }

  /** Parsing the joined list gives the addresses back, as long as none of
      them contains a comma or surrounding white space. */
  lemma ParseGeneratedWallets(addresses: seq<string>)
    requires |addresses| >= 1
    requires forall i :: 0 <= i < |addresses| ==> ',' !in addresses[i] && Trimmed(addresses[i])
    ensures UseGeneratedWallets(addresses).Some?
    ensures ParseRecipients(UseGeneratedWallets(addresses).value) == addresses
  {
    var text := Join(addresses, ',');
    SplitJoin(addresses, ',');
    assert Split(text, ',') == addresses;
  }

  /** What `sendBatch` does before any transaction. */
  datatype BatchPlan =
    | NoBatchContract                 // no BatchTransaction address is cached
    | InvalidInput                    // empty recipients or amount, or amount <= 0
    | InvalidAddress(addr: string)    // the first recipient that is not an address
    | Transfer(recipients: seq<string>)

  /** `sendBatch`'s checks: a cached BatchTransaction address, non-empty
      inputs with a positive amount, then every parsed recipient must be an
      address; the first one that is not aborts with no transaction. */
  function SendBatch(cache: map<string, string>, recipients: string, amount: string, amountNum: Number,
                     isAddress: string -> bool): (r: BatchPlan)
    ensures r.NoBatchContract? <==> "BatchTransaction" !in cache || cache["BatchTransaction"] == ""
    ensures r.InvalidInput? <==>
      && "BatchTransaction" in cache && cache["BatchTransaction"] != ""
      && (recipients == "" || amount == "" || AtMost(amountNum, 0.0))
    ensures r.InvalidAddress? ==>
      var list := ParseRecipients(recipients);
      exists i :: 0 <= i < |list| && list[i] == r.addr && !isAddress(list[i])
        && forall j :: 0 <= j < i ==> isAddress(list[j])
    ensures r.Transfer? <==>
      && "BatchTransaction" in cache && cache["BatchTransaction"] != ""
      && recipients != "" && amount != "" && !AtMost(amountNum, 0.0)
      && forall i :: 0 <= i < |ParseRecipients(recipients)| ==> isAddress(ParseRecipients(recipients)[i])
    ensures r.Transfer? ==> r.recipients == ParseRecipients(recipients)
  {
    if "BatchTransaction" !in cache || cache["BatchTransaction"] == "" then NoBatchContract
    else if recipients == "" || amount == "" || AtMost(amountNum, 0.0) then InvalidInput
    else
      var list := ParseRecipients(recipients);
      match FirstIndex(list, a => !isAddress(a))
      case Some(i) => InvalidAddress(list[i])
      case None => Transfer(list)
  }

  /** Generated wallets fed into a batch: when every generated address is a
      valid address with no comma or surrounding white space, the batch
      transfers to exactly those addresses, in order. */
  lemma BatchOfGeneratedWallets(cache: map<string, string>, addresses: seq<string>, amount: string,
                                amountNum: Number, isAddress: string -> bool)
    requires "BatchTransaction" in cache && cache["BatchTransaction"] != ""
    requires amount != "" && !AtMost(amountNum, 0.0)
    requires |addresses| >= 1
    requires forall i :: 0 <= i < |addresses| ==>
      addresses[i] != "" && ',' !in addresses[i] && Trimmed(addresses[i]) && isAddress(addresses[i])
    ensures UseGeneratedWallets(addresses).Some?
    ensures SendBatch(cache, UseGeneratedWallets(addresses).value, amount, amountNum, isAddress) == Transfer(addresses)
  {
    ParseGeneratedWallets(addresses);
    var text := UseGeneratedWallets(addresses).value;
    assert Split("", ',') == [""];
    assert ParseRecipients("") == [""];
    assert text != "";
  }
}

=== FILE: json.dfy ===
/** The JSON values that travel between the front-end and the registry
    service, with the two JavaScript coercions the service applies to them:
    truthiness (`!x`) and conversion to a string inside a template literal
    (`${x}`). Numbers are JSON integers here. */
module JsonValue {
  import opened Common

  datatype Json =
    | JNull
    | JBool(b: bool)
    | JNum(n: int)
    | JStr(s: string)
    | JArr(items: seq<Json>)
    | JObj(fields: map<string, Json>)

  /** A parsed request body: the fields of the top-level JSON object. A field
      that is absent reads as `undefined`. */
  type Body = map<string, Json>

  /** JavaScript truthiness of a JSON value; `undefined` (an absent field) is
      falsy as well, see `FieldTruthy`. */
  function Truthy(j: Json): (t: bool)
    ensures !t <==> j in {JNull, JBool(false), JNum(0), JStr("")}
  {
    match j
    case JNull => false
    case JBool(b) => b
    case JNum(n) => n != 0
    case JStr(s) => s != ""
    case JArr(_) => true
    case JObj(_) => true
  }

  /** `!!body[name]`, where a missing field is `undefined`. */
  predicate FieldTruthy(body: Body, name: string)
  {
    name in body && Truthy(body[name])
  }

  /** The decimal digits of a natural number. This is what `String(n)` prints
      only for integers up to 2^53, which a double holds exactly. */
  function NatToDecimal(n: nat): (r: string)
    ensures |r| >= 1
    ensures forall i :: 0 <= i < |r| ==> '0' <= r[i] <= '9'
    decreases n
  {
    var d := ['0' + (n % 10) as char];
    if n < 10 then d else NatToDecimal(n / 10) + d
  }

  function IntToDecimal(n: int): string
  {
    if n < 0 then "-" + NatToDecimal(-n) else NatToDecimal(n)
  }

  /** The string a value becomes inside a template literal: strings are kept
      as they are, arrays print their elements joined by commas (with `null`
      printing as nothing) and every object prints as `[object Object]`.
      Numbers print as plain decimal integers. That matches JavaScript only for
      integers up to 2^53; larger ones print differently there, e.g. `1e+21`. */
  function KeyString(j: Json): (r: string)
    ensures j.JStr? ==> r == j.s
    decreases j
  {
    match j
    case JNull => "null"
    case JBool(b) => if b then "true" else "false"
    case JNum(n) => IntToDecimal(n)
    case JStr(s) => s
    case JArr(xs) =>
      Join(seq(|xs|, i requires 0 <= i < |xs| => if xs[i].JNull? then "" else KeyString(xs[i])), ',')
    case JObj(_) => "[object Object]"
  }
}

=== FILE: protocol.dfy ===
/** How the front-end and the registry service meet. The front-end's save
    sends `{ wallet, contractType, address }`, while the service's POST
    handler reads `{ wallet, contractData }`; this module states what that
    does to every save and to the next session sync, and proves the round
    trip for a POST handler that reads the fields the front-end sends. */
module Protocol {
  import opened Common
  import opened JsonValue
  import Registry
  import Session

  /** The body `saveContract` sends, as the service's JSON parser hands it
      over. */
  function SaveBody(req: Session.SaveRequest): Body
  {
    map["wallet" := JStr(req.wallet), "contractType" := JStr(req.contractType), "address" := JStr(req.address)]
  }

  /** Every save the front-end sends is answered 400 and changes nothing: its
      body has no `contractData` field. */
  lemma ClientSaveRejected(store: Registry.Store, req: Session.SaveRequest)
    ensures Registry.Post(store, SaveBody(req)) == (store, Registry.BadRequest("Invalid data"))
  {
    assert !FieldTruthy(SaveBody(req), "contractData");
  }

  /** The service handling a run of saves, one POST after another. */
  function DeliverSaves(store: Registry.Store, saves: seq<Session.SaveRequest>): (r: (Registry.Store, seq<Registry.Response>))
    ensures r.0 == store
    ensures |r.1| == |saves|
    ensures forall i :: 0 <= i < |saves| ==> r.1[i] == Registry.BadRequest("Invalid data")
    decreases |saves|
  {
    if |saves| == 0 then (store, [])
    else
      ClientSaveRejected(store, saves[0]);
      var (s1, first) := Registry.Post(store, SaveBody(saves[0]));
      var (s2, rest) := DeliverSaves(s1, saves[1..]);
      (s2, [first] + rest)
  }

  /* ---------------- reading the registry's answer ---------------- */

  /** One stored element read as `{ contractType, address }`. */
  function DecodeRecord(j: Json): Option<Session.Record>
  {
    if j.JObj? && "contractType" in j.fields && j.fields["contractType"].JStr?
       && "address" in j.fields && j.fields["address"].JStr?
    then Some(Session.Record(j.fields["contractType"].s, j.fields["address"].s))
    else None
  }

  function EncodeRecord(r: Session.Record): Json
  {
    JObj(map["contractType" := JStr(r.contractType), "address" := JStr(r.address)])
  }

  /** The GET answer as `loadUserContracts` reads it: an array whose every
      element is an object with string `contractType` and `address` fields,
      read as records in order, or a failure. */
  function DecodeRecords(j: Json): (r: Session.FetchResult)
    ensures r.Fetched? <==> j.JArr? && forall i :: 0 <= i < |j.items| ==>
      && j.items[i].JObj?
      && "contractType" in j.items[i].fields && j.items[i].fields["contractType"].JStr?
      && "address" in j.items[i].fields && j.items[i].fields["address"].JStr?
    ensures r.Fetched? ==> |r.records| == |j.items| && forall i :: 0 <= i < |j.items| ==>
      && j.items[i].fields["contractType"] == JStr(r.records[i].contractType)
      && j.items[i].fields["address"] == JStr(r.records[i].address)
  {
    if j.JArr? && forall i :: 0 <= i < |j.items| ==> DecodeRecord(j.items[i]).Some? then
      Session.Fetched(seq(|j.items|, i requires 0 <= i < |j.items| => DecodeRecord(j.items[i]).value))
    else Session.FetchFailed
  }

  /** Records written as JSON objects read back as the same records. */
  lemma DecodeEncode(rs: seq<Session.Record>)
    ensures DecodeRecords(JArr(seq(|rs|, i requires 0 <= i < |rs| => EncodeRecord(rs[i])))) == Session.Fetched(rs)
  {
    var items := seq(|rs|, i requires 0 <= i < |rs| => EncodeRecord(rs[i]));
    assert forall i :: 0 <= i < |rs| ==> DecodeRecord(items[i]) == Some(rs[i]);
    var r := DecodeRecords(JArr(items));
    assert r.records == rs;
  }

  /** The consequence for a returning wallet: however many saves a session
      issued, a service that started with nothing for the wallet (in any
      casing) still has nothing, so the next session sync finds an empty list
      and leaves the cache exactly as it was. */
  lemma SyncAfterSavesRestoresNothing(store: Registry.Store, saves: seq<Session.SaveRequest>,
                                      listing: seq<string>, c: Session.Client, wallet: string)
    requires forall k :: k in store ==> !SameIgnoringCase(k, wallet)
    requires Registry.ListsKeys(DeliverSaves(store, saves).0, listing)
    ensures var answer := Registry.Get(DeliverSaves(store, saves).0, listing, wallet);
      && answer == Registry.Ok(JArr([]))
      && Session.LoadUserContracts(c, wallet, DecodeRecords(answer.body)).client == c
  {
    var answer := Registry.Get(DeliverSaves(store, saves).0, listing, wallet);
    var fetched := DecodeRecords(answer.body);
    assert fetched == Session.Fetched([]);
    var r := Session.LoadUserContracts(c, wallet, fetched);
    if wallet != "" {
      assert r.client.cache.Keys == c.cache.Keys;
    }
  }

  /* ---------------- a POST handler that reads the fields sent ---------------- */

  /** POST /contracts reading `{ wallet, contractType, address }`: all three
      must be truthy, and the record `{ contractType, address }` is pushed
      onto the wallet's exact-key list. */
  function PostFlat(store: Registry.Store, body: Body): (r: (Registry.Store, Registry.Response))
    ensures r.1.BadRequest? <==>
      !FieldTruthy(body, "wallet") || !FieldTruthy(body, "contractType") || !FieldTruthy(body, "address")
    ensures r.1.BadRequest? ==> r.0 == store
    ensures r.1.Ok? ==>
      var item := JObj(map["contractType" := body["contractType"], "address" := body["address"]]);
      Registry.Appended(store, r.0, KeyString(body["wallet"]), item)
  {
    if !FieldTruthy(body, "wallet") || !FieldTruthy(body, "contractType") || !FieldTruthy(body, "address") then
      (store, Registry.BadRequest("Invalid data"))
    else
      var key := KeyString(body["wallet"]);
      var item := JObj(map["contractType" := body["contractType"], "address" := body["address"]]);
      var list := Registry.Stored(store, key) + [item];
      assert list[..|list| - 1] == Registry.Stored(store, key);
      (store[key := list], Registry.Ok(Registry.SavedBody(item)))
  }

  /** With that handler a save survives into the next session: after the
      front-end saves `(wallet, type, address)`, a GET for the wallet and a
      session sync leave `type -> address` in the cache, provided the
      wallet's earlier stored elements are all records. */
  lemma FlatSaveRestoredOnSync(store: Registry.Store, req: Session.SaveRequest, listing: seq<string>,
                               c: Session.Client)
    requires req.wallet != "" && req.contractType != "" && req.address != ""
    requires forall i :: 0 <= i < |Registry.Stored(store, req.wallet)| ==>
      DecodeRecord(Registry.Stored(store, req.wallet)[i]).Some?
    requires Registry.ListsKeys(PostFlat(store, SaveBody(req)).0, listing)
    ensures var after := PostFlat(store, SaveBody(req)).0;
      var answer := Registry.Get(after, listing, req.wallet);
      var synced := Session.LoadUserContracts(c, req.wallet, DecodeRecords(answer.body)).client;
      req.contractType in synced.cache && synced.cache[req.contractType] == req.address
  {
    var body := SaveBody(req);
    assert FieldTruthy(body, "wallet") && FieldTruthy(body, "contractType") && FieldTruthy(body, "address");
    assert KeyString(body["wallet"]) == req.wallet;
    var after := PostFlat(store, body).0;
    var items := after[req.wallet];
    var earlier := Registry.Stored(store, req.wallet);
    var n := |items| - 1;
    assert items[..n] == earlier;
    assert forall i :: 0 <= i < n ==> items[i] == earlier[i];
    assert DecodeRecord(items[n]) == Some(Session.Record(req.contractType, req.address));
    var answer := Registry.Get(after, listing, req.wallet);
    assert answer.body.items == items;
    var fetched := DecodeRecords(answer.body);
    assert fetched.Fetched?;
    assert fetched.records[n] == Session.Record(req.contractType, req.address);
  }
}

=== FILE: registry.dfy ===
/** The registry service: three request handlers over the `./data/`
    directory, which holds one JSON array per wallet in a file named by the
    wallet string exactly as it arrived. The directory is a map from that
    string to the stored list; each handler is a pure step from the store
    (and the request) to the new store and the response. */
module Registry {
  import opened Common
  import opened JsonValue

  /** Stored lists, keyed by the wallet string as received. */
  type Store = map<string, seq<Json>>

  /** The 200 JSON responses and the 400 plain-text one. */
  datatype Response = Ok(body: Json) | BadRequest(message: string)

  /** The `{ success: true }` body of a delete. */
  const DeletedBody: Json := JObj(map["success" := JBool(true)])

  /** The `{ success: true, contractData }` body of an accepted save. */
  function SavedBody(contractData: Json): Json
  {
    JObj(map["success" := JBool(true), "contractData" := contractData])
  }

  /** `listing` is a directory listing of the store: it names exactly the
      stored keys, in whatever order the file system reports them. */
  ghost predicate ListsKeys(store: Store, listing: seq<string>)
  {
    forall k :: k in listing <==> k in store
  }

  /** The list stored under exactly `key`, or the empty list a new file
      starts from. */
  function Stored(store: Store, key: string): seq<Json>
  {
    if key in store then store[key] else []
  }

  /** `after` is `before` with `item` pushed onto the list under `key`
      (starting from an empty list), and every other key as it was. */
  ghost predicate Appended(before: Store, after: Store, key: string, item: Json)
  {
    && key in after
    && |after[key]| >= 1
    && after[key][..|after[key]| - 1] == Stored(before, key)
    && after[key][|after[key]| - 1] == item
    && (forall k :: k != key ==> (k in after <==> k in before))
    && (forall k :: k != key && k in before ==> after[k] == before[k])
  }

  /** GET /contracts/:wallet. The exact key wins; failing that, the first key
      in directory order that equals `wallet` ignoring case; failing that,
      an empty list. Never an error. */
  function Get(store: Store, listing: seq<string>, wallet: string): (r: Response)
    requires ListsKeys(store, listing)
    ensures r.Ok? && r.body.JArr?
    ensures wallet in store ==> r.body.items == store[wallet]
    ensures wallet !in store ==>
      forall i :: 0 <= i < |listing| && SameIgnoringCase(listing[i], wallet)
        && (forall j :: 0 <= j < i ==> !SameIgnoringCase(listing[j], wallet))
        ==> listing[i] in store && r.body.items == store[listing[i]]
    ensures wallet !in store && (forall k :: k in store ==> !SameIgnoringCase(k, wallet)) ==>
      r.body.items == []
  {
    if wallet in store then Ok(JArr(store[wallet]))
    else match FirstIndex(listing, k => SameIgnoringCase(k, wallet))
      case Some(i) => Ok(JArr(store[listing[i]]))
      case None => Ok(JArr([]))
  }

  /** POST /contracts. The body must carry truthy `wallet` and `contractData`
      fields, otherwise 400 and nothing is written. An accepted save pushes
      `contractData` onto the list under the wallet's exact string (never the
      case-insensitive match) and echoes it back. */
  function Post(store: Store, body: Body): (r: (Store, Response))
    ensures r.1.BadRequest? <==> !FieldTruthy(body, "wallet") || !FieldTruthy(body, "contractData")
    ensures r.1.BadRequest? ==> r.0 == store && r.1.message == "Invalid data"
    ensures r.1.Ok? ==>
      && Appended(store, r.0, KeyString(body["wallet"]), body["contractData"])
      && r.1.body == SavedBody(body["contractData"])
  {
    if !FieldTruthy(body, "wallet") || !FieldTruthy(body, "contractData") then
      (store, BadRequest("Invalid data"))
    else
      var key := KeyString(body["wallet"]);
      var item := body["contractData"];
      var list := Stored(store, key) + [item];
      assert list[..|list| - 1] == Stored(store, key);
      (store[key := list], Ok(SavedBody(item)))
  }

  /** DELETE /contracts/:wallet. Removes exactly that key, if present, and
      reports success either way. */
  function Delete(store: Store, wallet: string): (r: (Store, Response))
    ensures wallet !in r.0
    ensures forall k :: k != wallet ==> (k in r.0 <==> k in store)
    ensures forall k :: k != wallet && k in store ==> r.0[k] == store[k]
    ensures r.1 == Ok(DeletedBody)
  {
    (map k | k in store && k != wallet :: store[k], Ok(DeletedBody))
  }

  /* ---------------- properties relating the handlers ---------------- */

  /** Deleting twice is the same as deleting once. */
  lemma DeleteIdempotent(store: Store, wallet: string)
    ensures Delete(Delete(store, wallet).0, wallet) == Delete(store, wallet)
  {
    var once := Delete(store, wallet).0;
    var twice := Delete(once, wallet).0;
    assert twice.Keys == once.Keys;
    assert forall k :: k in twice ==> twice[k] == once[k];
    assert twice == once;
  }

  /** Read-your-writes: after an accepted save under a string wallet, a GET
      for that same string returns the previous list with the new item
      last. */
  lemma GetAfterPost(store: Store, w: string, item: Json, listing': seq<string>)
    requires w != "" && Truthy(item)
    requires ListsKeys(Post(store, map["wallet" := JStr(w), "contractData" := item]).0, listing')
    ensures var r := Get(Post(store, map["wallet" := JStr(w), "contractData" := item]).0, listing', w);
      r.body.items == Stored(store, w) + [item]
  {
    var body := map["wallet" := JStr(w), "contractData" := item];
    var after := Post(store, body).0;
    assert FieldTruthy(body, "wallet") && FieldTruthy(body, "contractData");
    assert KeyString(body["wallet"]) == w;
    var items := after[w];
    assert items == items[..|items| - 1] + [items[|items| - 1]];
  }

  /** Saves are keyed by the exact string: two casings of one address end up
      as two separate stored lists, each holding its own save. */
  lemma CasingsStoredApart(store: Store, w1: string, w2: string, d1: Json, d2: Json)
    requires w1 != "" && w2 != "" && w1 != w2 && Truthy(d1) && Truthy(d2)
    ensures var s1 := Post(store, map["wallet" := JStr(w1), "contractData" := d1]).0;
      var s2 := Post(s1, map["wallet" := JStr(w2), "contractData" := d2]).0;
      && w1 in s2 && w2 in s2
      && s2[w1] == Stored(store, w1) + [d1]
      && s2[w2] == Stored(store, w2) + [d2]
  {
    var b1 := map["wallet" := JStr(w1), "contractData" := d1];
    var b2 := map["wallet" := JStr(w2), "contractData" := d2];
    assert FieldTruthy(b1, "wallet") && FieldTruthy(b1, "contractData");
    assert FieldTruthy(b2, "wallet") && FieldTruthy(b2, "contractData");
    assert KeyString(b1["wallet"]) == w1 && KeyString(b2["wallet"]) == w2;
    var s1 := Post(store, b1).0;
    var s2 := Post(s1, b2).0;
    assert s1[w1] == s1[w1][..|s1[w1]| - 1] + [s1[w1][|s1[w1]| - 1]];
    assert s2[w2] == s2[w2][..|s2[w2]| - 1] + [s2[w2][|s2[w2]| - 1]];
  }

  /** The case-insensitive fallback for reads: when a wallet's first save
      arrives in one casing and no stored key matched it before, a GET in
      any other casing of the same address returns that save. */
  lemma GetOtherCasingAfterPost(store: Store, w1: string, w2: string, item: Json, listing': seq<string>)
    requires w1 != "" && Truthy(item) && w1 != w2 && SameIgnoringCase(w1, w2)
    requires forall k :: k in store ==> !SameIgnoringCase(k, w2)
    requires ListsKeys(Post(store, map["wallet" := JStr(w1), "contractData" := item]).0, listing')
    ensures Get(Post(store, map["wallet" := JStr(w1), "contractData" := item]).0, listing', w2).body.items == [item]
  {
    var body := map["wallet" := JStr(w1), "contractData" := item];
    var after := Post(store, body).0;
    assert FieldTruthy(body, "wallet") && FieldTruthy(body, "contractData");
    assert KeyString(body["wallet"]) == w1;
    assert w1 !in store;
    assert w2 !in after;
    assert w1 in listing';
    forall j | 0 <= j < |listing'| && SameIgnoringCase(listing'[j], w2)
      ensures listing'[j] == w1
    {
      assert listing'[j] in after;
    }
    var m := FirstIndex(listing', k => SameIgnoringCase(k, w2));
    assert m.Some? by {
      var i :| 0 <= i < |listing'| && listing'[i] == w1;
    }
    assert after[w1] == after[w1][..|after[w1]| - 1] + [after[w1][|after[w1]| - 1]];
  }

  /** After a delete, a GET for the same string no longer sees the deleted
      list: it returns the list of the first remaining key that equals the
      wallet ignoring case, or the empty list if there is none. */
  lemma GetAfterDelete(store: Store, w: string, listing': seq<string>)
    requires ListsKeys(Delete(store, w).0, listing')
    ensures var after := Delete(store, w).0;
      var r := Get(after, listing', w);
      && ((forall k :: k in after ==> !SameIgnoringCase(k, w)) ==> r.body.items == [])
      && (forall i :: 0 <= i < |listing'| && SameIgnoringCase(listing'[i], w)
            && (forall j :: 0 <= j < i ==> !SameIgnoringCase(listing'[j], w))
            ==> listing'[i] != w && listing'[i] in store && r.body.items == store[listing'[i]])
  {
  }
}

=== FILE: session.dfy ===
/** The front-end's deployment orchestration. The page keeps the connected
    wallet and an in-memory cache from contract type to address; every
    outward effect is appended to a trace of events. Chain calls and the
    registry fetch are oracles passed in as parameters, and saves are POST
    requests that are issued and never awaited, so they appear in the trace
    exactly when they are sent. */
module Session {
  import opened Common

  /** The contract roles the page knows how to deploy or discover. */
  datatype Role =
    | ContractManager | Token | NFT | VotingSystem | BatchTransaction
    | VirtualPet | RockPaperScissors | OmonStaking | BettingGame | RandomGM

  /** The role's name as used for cache keys and saved records. */
  function Name(r: Role): string
  {
    match r
    case ContractManager => "ContractManager"
    case Token => "Token"
    case NFT => "NFT"
    case VotingSystem => "VotingSystem"
    case BatchTransaction => "BatchTransaction"
    case VirtualPet => "VirtualPet"
    case RockPaperScissors => "RockPaperScissors"
    case OmonStaking => "OmonStaking"
    case BettingGame => "BettingGame"
    case RandomGM => "RandomGM"
  }

  /** The manager's children, in the order they are queried and saved. */
  const Children: seq<Role> := [Token, NFT, VotingSystem, BatchTransaction]

  /** The body of a save: `{ wallet, contractType, address }`. */
  datatype SaveRequest = SaveRequest(wallet: string, contractType: string, address: string)

  datatype Event =
    | DeployTx(contractType: string)   // a contract deployment submitted and awaited
    | ChainRead(child: Role)           // a read of one child address from the manager
    | FetchRegistry(wallet: string)    // GET /contracts/:wallet
    | PostSave(save: SaveRequest)      // POST /contracts, not awaited

  /** What a deployment or a chain read yields: an address, or a thrown error. */
  datatype ChainResult = Ok(addr: string) | Fail

  /** One element of the registry's answer, as the page reads it. */
  datatype Record = Record(contractType: string, address: string)

  /** The registry fetch: the decoded list, or a network or parse failure. */
  datatype FetchResult = Fetched(records: seq<Record>) | FetchFailed

  /** Page state: the connected wallet (`""` when none) and the address
      cache. */
  datatype Client = Client(wallet: string, cache: map<string, string>)

  /** One front-end operation: the page state afterwards, the effects it
      issued in order, and what it reported. */
  datatype Step<R> = Step(client: Client, effects: seq<Event>, report: R)

  /** How a deployment ended, as the page reports it to the user. */
  datatype Report = NotConnected | DeployFailed | Deployed(address: string)

  /** How the discovery of the manager's children ended. */
  datatype Discovery = NoManager | ReadFailed(at: Role) | Discovered(addrs: seq<string>)

  /** The outcome of reading a sequence of children one after another. */
  datatype Reads = AllRead(addrs: seq<string>) | FailedAt(index: nat)

  /* ---------------- effects ---------------- */

  /** The saves among some effects, in order. */
  function Saves(effects: seq<Event>): (r: seq<SaveRequest>)
    ensures |r| <= |effects|
    decreases |effects|
  {
    if |effects| == 0 then []
    else (if effects[0].PostSave? then [effects[0].save] else []) + Saves(effects[1..])
  }

  lemma {:induction false} SavesAppend(a: seq<Event>, b: seq<Event>)
    ensures Saves(a + b) == Saves(a) + Saves(b)
    decreases |a|
  {
    if |a| == 0 {
      assert a + b == b;
    } else {
      var head := if a[0].PostSave? then [a[0].save] else [];
      assert (a + b)[0] == a[0];
      assert (a + b)[1..] == a[1..] + b;
      SavesAppend(a[1..], b);
      assert Saves(a + b) == head + (Saves(a[1..]) + Saves(b));
      AppendAssoc(head, Saves(a[1..]), Saves(b));
    }
  }

  lemma AppendAssoc<T>(a: seq<T>, b: seq<T>, c: seq<T>)
    ensures (a + b) + c == a + (b + c)
  {
  }

  /** `ChainRead` events for the given children, in order: one per child,
      and none of them a save. */
  function ReadEvents(rs: seq<Role>): (r: seq<Event>)
    ensures |r| == |rs|
    ensures forall k :: 0 <= k < |r| ==> r[k].ChainRead?
    ensures Saves(r) == []
    decreases |rs|
  {
    if |rs| == 0 then []
    else
      var rest := ReadEvents(rs[1..]);
      assert ([ChainRead(rs[0])] + rest)[1..] == rest;
      [ChainRead(rs[0])] + rest
  }

  /** Every effect is a chain read or a save, and no read follows a save. */
  ghost predicate ReadsThenPosts(effects: seq<Event>)
  {
    && (forall k :: 0 <= k < |effects| ==> effects[k].ChainRead? || effects[k].PostSave?)
    && (forall k1, k2 :: 0 <= k1 < k2 < |effects| && effects[k1].PostSave? ==> !effects[k2].ChainRead?)
  }

  lemma ReadsThenPostsConcat(rs: seq<Role>, posts: seq<Event>)
    requires forall k :: 0 <= k < |posts| ==> posts[k].PostSave?
    ensures ReadsThenPosts(ReadEvents(rs) + posts)
  {
    var e := ReadEvents(rs) + posts;
    assert forall k :: 0 <= k < |rs| ==> e[k].ChainRead?;
    assert forall k :: |rs| <= k < |e| ==> e[k] == posts[k - |rs|];
  }

  /* ---------------- saveContract ---------------- */

  /** `saveContract(wallet, contractType, address)`: the POST it issues, if
      any. Nothing is sent when one of the three fields is empty. */
  function SaveContract(wallet: string, contractType: string, address: string): (r: seq<Event>)
    ensures |r| <= 1
    ensures r == [] <==> wallet == "" || contractType == "" || address == ""
    ensures forall k :: 0 <= k < |r| ==> r[k] == PostSave(SaveRequest(wallet, contractType, address))
    ensures Saves(r) == if r == [] then [] else [SaveRequest(wallet, contractType, address)]
  {
    if wallet == "" || contractType == "" || address == "" then []
    else [PostSave(SaveRequest(wallet, contractType, address))]
  }

  /* ---------------- loadUserContracts ---------------- */

  /** `r` is what the cache looks like after writing `cache[contractType] =
      address` for each record in order: the keys are the old keys plus the
      record types; a type present in the records maps to the address of its
      last occurrence; every other entry keeps its old value. */
  ghost predicate LastWins(cache: map<string, string>, records: seq<Record>, r: map<string, string>)
  {
    && (forall k :: k in r <==> k in cache || exists i :: 0 <= i < |records| && records[i].contractType == k)
    && (forall i :: (0 <= i < |records|
         && (forall j :: i < j < |records| ==> records[j].contractType != records[i].contractType)
         ==> records[i].contractType in r && r[records[i].contractType] == records[i].address))
    && (forall k :: (k in cache && (forall i :: 0 <= i < |records| ==> records[i].contractType != k)
         ==> k in r && r[k] == cache[k]))
  }

  /** One more record written on top of a last-wins cache keeps it last-wins. */
  lemma LastWinsStep(cache: map<string, string>, prefix: seq<Record>, last: Record, prev: map<string, string>)
    requires LastWins(cache, prefix, prev)
    ensures LastWins(cache, prefix + [last], prev[last.contractType := last.address])
  {
    var records := prefix + [last];
    var r := prev[last.contractType := last.address];
    assert forall i :: 0 <= i < |prefix| ==> records[i] == prefix[i];
    assert records[|prefix|] == last;
    forall k | k in r
      ensures k in cache || exists i :: 0 <= i < |records| && records[i].contractType == k
    {
      if k != last.contractType && k !in cache {
        var i :| 0 <= i < |prefix| && prefix[i].contractType == k;
        assert records[i].contractType == k;
      }
    }
  }

  /** The loop of `loadUserContracts`: for each record in order,
      `cache[contractType] = address`. */
  function ApplyRecords(cache: map<string, string>, records: seq<Record>): (r: map<string, string>)
    ensures LastWins(cache, records, r)
    decreases |records|
  {
    if |records| == 0 then cache
    else
      var last := records[|records| - 1];
      var prefix := records[..|records| - 1];
      var prev := ApplyRecords(cache, prefix);
      LastWinsStep(cache, prefix, last, prev);
      assert records == prefix + [last];
      prev[last.contractType := last.address]
  }

  /** The duplicate-role case: two `Token` records leave the later address. */
  lemma LastDuplicateWins(cache: map<string, string>, a: string, e: string)
    ensures ApplyRecords(cache, [Record("Token", a), Record("Token", e)])["Token"] == e
  {
  }

  /** `loadUserContracts(wallet)`: with no wallet nothing happens; otherwise
      the registry is fetched and, unless the fetch or its decoding failed,
      its records are folded into the cache. It never fails. */
  function LoadUserContracts(c: Client, wallet: string, response: FetchResult): (r: Step<()>)
    ensures r.client.wallet == c.wallet
    ensures wallet == "" ==> r.client == c && r.effects == []
    ensures wallet != "" ==> r.effects == [FetchRegistry(wallet)]
    ensures response.FetchFailed? ==> r.client == c
    ensures wallet != "" && response.Fetched? ==> LastWins(c.cache, response.records, r.client.cache)
  {
    if wallet == "" then Step(c, [], ())
    else match response
      case FetchFailed => Step(c, [FetchRegistry(wallet)], ())
      case Fetched(records) => Step(c.(cache := ApplyRecords(c.cache, records)), [FetchRegistry(wallet)], ())
  }

  /* ---------------- deployIndividualContract ---------------- */

  /** `deployIndividualContract(name)`: needs a wallet; a failed deployment
      saves and caches nothing; a successful one saves `(wallet, name, addr)`
      and then caches `name -> addr`. */
  function DeployIndividualContract(c: Client, role: Role, deploy: ChainResult): (r: Step<Report>)
    ensures c.wallet == "" ==> r == Step(c, [], NotConnected)
    ensures r.client.wallet == c.wallet
    ensures c.wallet != "" ==> |r.effects| >= 1 && r.effects[0] == DeployTx(Name(role))
    ensures c.wallet != "" ==>
      r.effects == [DeployTx(Name(role))] + (if deploy.Ok? then SaveContract(c.wallet, Name(role), deploy.addr) else [])
    ensures deploy.Fail? ==> r.client == c && Saves(r.effects) == []
    ensures c.wallet != "" && deploy.Fail? ==> r.report == DeployFailed
    ensures c.wallet != "" && deploy.Ok? ==>
      && r.report == Deployed(deploy.addr)
      && Name(role) in r.client.cache && r.client.cache[Name(role)] == deploy.addr
      && (forall k :: k != Name(role) ==> (k in r.client.cache <==> k in c.cache))
      && (forall k :: k != Name(role) && k in c.cache ==> r.client.cache[k] == c.cache[k])
      && Saves(r.effects) == (if deploy.addr == "" then [] else [SaveRequest(c.wallet, Name(role), deploy.addr)])
  {
    if c.wallet == "" then Step(c, [], NotConnected)
    else
      var tx := [DeployTx(Name(role))];
      match deploy
      case Fail => Step(c, tx, DeployFailed)
      case Ok(a) =>
        var save := SaveContract(c.wallet, Name(role), a);
        SavesAppend(tx, save);
        Step(c.(cache := c.cache[Name(role) := a]), tx + save, Deployed(a))
  }

  /* ---------------- getContractAddresses ---------------- */

  /** Reads each child's address in turn; the first failing read stops the
      sequence, as an awaited call that throws does. */
  function ReadAll(read: Role -> ChainResult, rs: seq<Role>): (r: Reads)
    ensures r.AllRead? <==> forall i :: 0 <= i < |rs| ==> read(rs[i]).Ok?
    ensures r.AllRead? ==> |r.addrs| == |rs| && forall i :: 0 <= i < |rs| ==> r.addrs[i] == read(rs[i]).addr
    ensures r.FailedAt? ==>
      && r.index < |rs|
      && read(rs[r.index]).Fail?
      && (forall i :: 0 <= i < r.index ==> read(rs[i]).Ok?)
    decreases |rs|
  {
    if |rs| == 0 then AllRead([])
    else match read(rs[0])
      case Fail => FailedAt(0)
      case Ok(a) =>
        match ReadAll(read, rs[1..])
        case AllRead(more) => AllRead([a] + more)
        case FailedAt(i) => FailedAt(i + 1)
  }

  /** The address a chain call yielded, or `""` when it threw. */
  function AddrOf(x: ChainResult): string
  {
    if x.Ok? then x.addr else ""
  }

  /** The four child addresses as the manager reports them. */
  function ChildAddrs(read: Role -> ChainResult): seq<string>
  {
    [AddrOf(read(Token)), AddrOf(read(NFT)), AddrOf(read(VotingSystem)), AddrOf(read(BatchTransaction))]
  }

  /** The saves of the four children, in the order Token, NFT, VotingSystem,
      BatchTransaction, each skipped when its address (or the wallet) is
      empty. */
  function ChildSaves(wallet: string, addrs: seq<string>): seq<SaveRequest>
    requires |addrs| == 4
  {
    (if wallet != "" && addrs[0] != "" then [SaveRequest(wallet, "Token", addrs[0])] else [])
    + (if wallet != "" && addrs[1] != "" then [SaveRequest(wallet, "NFT", addrs[1])] else [])
    + (if wallet != "" && addrs[2] != "" then [SaveRequest(wallet, "VotingSystem", addrs[2])] else [])
    + (if wallet != "" && addrs[3] != "" then [SaveRequest(wallet, "BatchTransaction", addrs[3])] else [])
  }

  /** The cache keys of the four children. */
  const ChildNames: set<string> := {"Token", "NFT", "VotingSystem", "BatchTransaction"}

  lemma ManagerIsNoChild()
    ensures "ContractManager" !in ChildNames
  {
    assert "ContractManager"[0] != "Token"[0];
    assert "ContractManager"[0] != "NFT"[0];
    assert "ContractManager"[0] != "VotingSystem"[0];
    assert "ContractManager"[0] != "BatchTransaction"[0];
  }

  /** The four child saves as effects. */
  function ChildPosts(wallet: string, a: seq<string>): (r: seq<Event>)
    requires |a| == 4
    ensures forall k :: 0 <= k < |r| ==> r[k].PostSave?
    ensures Saves(r) == ChildSaves(wallet, a)
  {
    var p0 := SaveContract(wallet, Name(Token), a[0]);
    var p1 := SaveContract(wallet, Name(NFT), a[1]);
    var p2 := SaveContract(wallet, Name(VotingSystem), a[2]);
    var p3 := SaveContract(wallet, Name(BatchTransaction), a[3]);
    SavesAppend(p0, p1);
    SavesAppend(p0 + p1, p2);
    SavesAppend(p0 + p1 + p2, p3);
    p0 + p1 + p2 + p3
  }

  /** The cache after the four child addresses are written. */
  function CacheChildren(cache: map<string, string>, a: seq<string>): (r: map<string, string>)
    requires |a| == 4
    ensures forall i :: 0 <= i < 4 ==> Name(Children[i]) in r && r[Name(Children[i])] == a[i]
    ensures forall k :: k !in ChildNames ==> (k in r <==> k in cache)
    ensures forall k :: k !in ChildNames && k in cache ==> r[k] == cache[k]
  {
    cache[Name(Token) := a[0]][Name(NFT) := a[1]][Name(VotingSystem) := a[2]][Name(BatchTransaction) := a[3]]
  }

  /** `getContractAddresses(managerAddress)`: with a manager address, reads
      the four children in order; only when all four reads succeed are the
      four addresses cached and then saved. A failed read stops the reads and
      leaves the cache as it was, with nothing saved. */
  function GetContractAddresses(c: Client, manager: string, read: Role -> ChainResult): (r: Step<Discovery>)
    ensures manager == "" ==> r == Step(c, [], NoManager)
    ensures r.report.NoManager? <==> manager == ""
    ensures r.client.wallet == c.wallet
    ensures ReadsThenPosts(r.effects)
    ensures r.report.ReadFailed? <==> manager != "" && exists i :: 0 <= i < |Children| && read(Children[i]).Fail?
    ensures r.report.ReadFailed? ==>
      && r.client == c
      && Saves(r.effects) == []
      && exists i :: 0 <= i < |Children| && Children[i] == r.report.at
           && read(Children[i]).Fail? && (forall j :: 0 <= j < i ==> read(Children[j]).Ok?)
           && r.effects == ReadEvents(Children[..i + 1])
    ensures r.report.Discovered? ==>
      && r.report.addrs == ChildAddrs(read)
      && (forall i :: 0 <= i < 4 ==> read(Children[i]).Ok?)
      && r.client.cache == CacheChildren(c.cache, r.report.addrs)
      && |r.effects| >= 4 && r.effects[..4] == ReadEvents(Children)
      && (forall k :: 4 <= k < |r.effects| ==> r.effects[k].PostSave?)
      && Saves(r.effects) == ChildSaves(c.wallet, r.report.addrs)
  {
    if manager == "" then Step(c, [], NoManager)
    else match ReadAll(read, Children)
      case FailedAt(i) => StopAtFailedRead(c, i)
      case AllRead(a) =>
        assert a == ChildAddrs(read);
        RecordChildren(c, a)
  }

  /** Discovery stopped by the `i`-th read: the reads up to and including it
      were issued, and nothing else happened. */
  function StopAtFailedRead(c: Client, i: nat): (r: Step<Discovery>)
    requires i < |Children|
    ensures r.client == c && r.report == ReadFailed(Children[i])
    ensures r.effects == ReadEvents(Children[..i + 1])
    ensures Saves(r.effects) == [] && ReadsThenPosts(r.effects)
  {
    var issued := ReadEvents(Children[..i + 1]);
    ReadsThenPostsConcat(Children[..i + 1], []);
    assert issued + [] == issued;
    Step(c, issued, ReadFailed(Children[i]))
  }

  /** Discovery after all four reads: cache the addresses, then save them. */
  function RecordChildren(c: Client, a: seq<string>): (r: Step<Discovery>)
    requires |a| == 4
    ensures r.client == c.(cache := CacheChildren(c.cache, a)) && r.report == Discovered(a)
    ensures |r.effects| >= 4 && r.effects[..4] == ReadEvents(Children)
    ensures forall k :: 4 <= k < |r.effects| ==> r.effects[k].PostSave?
    ensures Saves(r.effects) == ChildSaves(c.wallet, a) && ReadsThenPosts(r.effects)
  {
    var issued := ReadEvents(Children);
    var posts := ChildPosts(c.wallet, a);
    SavesAppend(issued, posts);
    ReadsThenPostsConcat(Children, posts);
    assert (issued + posts)[..4] == issued;
    Step(c.(cache := CacheChildren(c.cache, a)), issued + posts, Discovered(a))
  }

  /* ---------------- deployContractManager ---------------- */

  /** What a successful manager deployment leads to, read from the oracle:
      the saves and the final cache. */
  ghost predicate ManagerRecorded(c: Client, m: string, read: Role -> ChainResult, r: Step<Report>)
  {
    var managerSave := if m == "" then [] else [SaveRequest(c.wallet, "ContractManager", m)];
    && r.report == Deployed(m)
    && "ContractManager" in r.client.cache && r.client.cache["ContractManager"] == m
    && ((m == "" || exists i :: 0 <= i < 4 && read(Children[i]).Fail?) ==>
          r.client.cache == c.cache["ContractManager" := m] && Saves(r.effects) == managerSave)
    && ((m != "" && forall i :: 0 <= i < 4 ==> read(Children[i]).Ok?) ==>
          r.client.cache == CacheChildren(c.cache["ContractManager" := m], ChildAddrs(read))
          && Saves(r.effects) == managerSave + ChildSaves(c.wallet, ChildAddrs(read)))
  }

  /** The success path of `deployContractManager`: save and cache the
      manager, then discover its children. */
  function RecordManager(c: Client, m: string, read: Role -> ChainResult): (r: Step<Report>)
    requires c.wallet != ""
    ensures r.client.wallet == c.wallet
    ensures r.report == Deployed(m)
    ensures var d := GetContractAddresses(c.(cache := c.cache["ContractManager" := m]), m, read);
      && r.effects == [DeployTx("ContractManager")] + SaveContract(c.wallet, "ContractManager", m) + d.effects
      && r.client == d.client
  {
    var c1 := c.(cache := c.cache[Name(ContractManager) := m]);
    var d := GetContractAddresses(c1, m, read);
    Step(d.client, [DeployTx(Name(ContractManager))] + SaveContract(c.wallet, Name(ContractManager), m) + d.effects,
         Deployed(m))
  }

  /** The manager's record survives discovery, and the saves and cache are
      the manager's followed by the children's when every read succeeds. */
  lemma RecordManagerOutcome(c: Client, m: string, read: Role -> ChainResult)
    requires c.wallet != ""
    ensures ManagerRecorded(c, m, read, RecordManager(c, m, read))
  {
    var r := RecordManager(c, m, read);
    var tx := [DeployTx("ContractManager")];
    var save := SaveContract(c.wallet, "ContractManager", m);
    var d := GetContractAddresses(c.(cache := c.cache["ContractManager" := m]), m, read);
    SavesAppend(tx, save);
    SavesAppend(tx + save, d.effects);
    assert Saves(tx) == [];
    assert Saves(tx + save) == Saves(save);
    ManagerIsNoChild();
  }

  /** `deployContractManager()`: needs a wallet; a failed deployment saves and
      caches nothing. A successful one saves and caches the manager and then
      runs the discovery of its children, whose failure does not undo the
      manager's record and is not reported as a failed deployment. */
  function DeployContractManager(c: Client, deploy: ChainResult, read: Role -> ChainResult): (r: Step<Report>)
    ensures c.wallet == "" ==> r == Step(c, [], NotConnected)
    ensures r.client.wallet == c.wallet
    ensures c.wallet != "" ==> |r.effects| >= 1 && r.effects[0] == DeployTx("ContractManager")
    ensures deploy.Fail? ==> r.client == c && Saves(r.effects) == []
    ensures c.wallet != "" && deploy.Fail? ==> r.report == DeployFailed && r.effects == [DeployTx("ContractManager")]
    ensures c.wallet != "" && deploy.Ok? ==>
      var d := GetContractAddresses(c.(cache := c.cache["ContractManager" := deploy.addr]), deploy.addr, read);
      && r.effects == [DeployTx("ContractManager")] + SaveContract(c.wallet, "ContractManager", deploy.addr) + d.effects
      && r.client == d.client
    ensures c.wallet != "" && deploy.Ok? ==> ManagerRecorded(c, deploy.addr, read, r)
  {
    if c.wallet == "" then Step(c, [], NotConnected)
    else match deploy
      case Fail => Step(c, [DeployTx(Name(ContractManager))], DeployFailed)
      case Ok(m) =>
        RecordManagerOutcome(c, m, read);
        RecordManager(c, m, read)
  }

  /* ---------------- what a deployment leaves behind ---------------- */

  /** A full manager deployment: the manager and its four children are saved
      in the order ContractManager, Token, NFT, VotingSystem,
      BatchTransaction, and all five addresses end up in the cache. */
  lemma ManagerDeploySavesAll(c: Client, m: string, read: Role -> ChainResult)
    requires c.wallet != "" && m != ""
    requires forall i :: 0 <= i < 4 ==> read(Children[i]).Ok? && read(Children[i]).addr != ""
    ensures var r := DeployContractManager(c, Ok(m), read);
      var a := ChildAddrs(read);
      && Saves(r.effects) == [SaveRequest(c.wallet, "ContractManager", m), SaveRequest(c.wallet, "Token", a[0]),
                              SaveRequest(c.wallet, "NFT", a[1]), SaveRequest(c.wallet, "VotingSystem", a[2]),
                              SaveRequest(c.wallet, "BatchTransaction", a[3])]
      && r.client.cache == CacheChildren(c.cache["ContractManager" := m], a)
  {
    var r := RecordManager(c, m, read);
    var a := ChildAddrs(read);
    RecordManagerOutcome(c, m, read);
    FullDiscovery(c, m, read, r);
    assert a[0] != "" && a[1] != "" && a[2] != "" && a[3] != "" by {
      assert Children == [Token, NFT, VotingSystem, BatchTransaction];
      assert read(Children[0]).addr != "" && read(Children[1]).addr != "";
      assert read(Children[2]).addr != "" && read(Children[3]).addr != "";
    }
    ChildSavesAllPresent(c.wallet, m, a);
    assert DeployContractManager(c, Ok(m), read) == r;
  }

  /** With a wallet and four non-empty addresses, the manager's save is
      followed by all four child saves, in order. */
  lemma ChildSavesAllPresent(wallet: string, m: string, a: seq<string>)
    requires |a| == 4 && wallet != "" && a[0] != "" && a[1] != "" && a[2] != "" && a[3] != ""
    ensures [SaveRequest(wallet, "ContractManager", m)] + ChildSaves(wallet, a)
      == [SaveRequest(wallet, "ContractManager", m), SaveRequest(wallet, "Token", a[0]), SaveRequest(wallet, "NFT", a[1]),
          SaveRequest(wallet, "VotingSystem", a[2]), SaveRequest(wallet, "BatchTransaction", a[3])]
  {
  }

  /** The all-reads-succeed arm of `ManagerRecorded`. */
  lemma FullDiscovery(c: Client, m: string, read: Role -> ChainResult, r: Step<Report>)
    requires ManagerRecorded(c, m, read, r)
    requires m != "" && forall i :: 0 <= i < 4 ==> read(Children[i]).Ok?
    ensures Saves(r.effects) == [SaveRequest(c.wallet, "ContractManager", m)] + ChildSaves(c.wallet, ChildAddrs(read))
    ensures r.client.cache == CacheChildren(c.cache["ContractManager" := m], ChildAddrs(read))
  {
  }

  /** ... and the cache it leaves holds all five addresses. */
  lemma ManagerDeployCachesAll(c: Client, m: string, read: Role -> ChainResult)
    requires c.wallet != "" && m != ""
    requires forall i :: 0 <= i < 4 ==> read(Children[i]).Ok? && read(Children[i]).addr != ""
    ensures var cache := DeployContractManager(c, Ok(m), read).client.cache;
      && "ContractManager" in cache && cache["ContractManager"] == m
      && (forall i :: 0 <= i < 4 ==> Name(Children[i]) in cache && cache[Name(Children[i])] == read(Children[i]).addr)
  {
    ManagerDeploySavesAll(c, m, read);
    ManagerIsNoChild();
  }

  /** Whatever the chain does, every save a manager deployment issues agrees
      with the cache it leaves: the saved type maps to the saved address. */
  lemma ManagerSavesMatchCache(c: Client, deploy: ChainResult, read: Role -> ChainResult)
    ensures var r := DeployContractManager(c, deploy, read);
      forall s :: s in Saves(r.effects) ==>
        s.wallet == c.wallet && s.contractType in r.client.cache && r.client.cache[s.contractType] == s.address
  {
    var r := DeployContractManager(c, deploy, read);
    if c.wallet != "" && deploy.Ok? {
      var m := deploy.addr;
      assert ManagerRecorded(c, m, read, r);
      var managerSave := if m == "" then [] else [SaveRequest(c.wallet, "ContractManager", m)];
      if m != "" && forall i :: 0 <= i < 4 ==> read(Children[i]).Ok? {
        var a := ChildAddrs(read);
        ManagerIsNoChild();
        ChildSavesMatchCache(c.wallet, a, c.cache["ContractManager" := m]);
        assert Saves(r.effects) == managerSave + ChildSaves(c.wallet, a);
      }
    }
  }

  /** Each child save names a child whose cached address is the saved one. */
  lemma ChildSavesMatchCache(wallet: string, a: seq<string>, cache: map<string, string>)
    requires |a| == 4
    ensures forall s :: s in ChildSaves(wallet, a) ==>
      s.wallet == wallet && s.contractType in ChildNames
      && s.contractType in CacheChildren(cache, a) && CacheChildren(cache, a)[s.contractType] == s.address
  {
    var r := CacheChildren(cache, a);
    assert r["Token"] == a[0] && r["NFT"] == a[1] && r["VotingSystem"] == a[2] && r["BatchTransaction"] == a[3] by {
      assert Name(Children[0]) == "Token" && Name(Children[1]) == "NFT";
      assert Name(Children[2]) == "VotingSystem" && Name(Children[3]) == "BatchTransaction";
    }
  }

  /** The same agreement for an individual deployment. */
  lemma IndividualSaveMatchesCache(c: Client, role: Role, deploy: ChainResult)
    ensures var r := DeployIndividualContract(c, role, deploy);
      forall s :: s in Saves(r.effects) ==>
        s.wallet == c.wallet && s.contractType in r.client.cache && r.client.cache[s.contractType] == s.address
  {
  }
}
